=== FILE: README.md ===
# SippyTenders persistence layer and screen state, in Dafny

This project models the local persistence layer of the SippyTenders cocktail app and the screen
logic that sits on top of it:

- **the favorites repository** (`favoriteService.ts`): an ordered list of cocktails, deduplicated
  by `idDrink`, stored as one whole value under the key `favorites`. Every mutation reads the
  whole list, changes it and writes it back. Reads fail open and give `[]`;
- **the user session provider** (`UserContext.tsx`): two cached slots, `preferences` (null or a
  `UserPreferences`) and `stats` (a `UserStats`), backed by the keys `user_preferences` and
  `user_stats`. Loading happens once, on mount. Preference writes and clearing report store
  failures to the caller. Stats writes swallow them;
- **the onboarding form**: four fields that start empty and are set one at a time from fixed
  option lists. "Get Started" stays disabled until every field is set;
- **the recipe screen**: the ingredient list built from fifteen numbered
  (ingredient, measure) slots, the fallback texts, and the favourite toggle;
- **the dashboard**: the favourites list and the dashboard's own stats record. On load the list is
  re-read and `totalFavorites` set to its length. A confirmed "Clear All" empties the list and sets
  `totalFavorites` to 0. Neither touches `cocktailsTried` or `favoriteSpirit`, which keep their
  initial values.

Modules, one per source file:

| module | file | models |
|---|---|---|
| `Types` | `types.dfy` | `src/types/index.ts`, and the `Cocktail` record from `src/services/cocktailService.ts` |
| `AsyncStore` | `async_store.dfy` | the device key-value store the app calls |
| `FavoriteService` | `favorite_service.dfy` | `src/services/favoriteService.ts` |
| `UserContext` | `user_context.dfy` | `src/contexts/UserContext.tsx` |
| `OnboardingScreen` | `onboarding_screen.dfy` | the form state of `src/screens/OnboardingScreen.tsx` |
| `RecipeDetailsScreen` | `recipe_details_screen.dfy` | the non-UI logic of `src/screens/RecipeDetailsScreen.tsx` |
| `UserDashboardScreen` | `user_dashboard_screen.dfy` | the non-UI logic of `src/screens/UserDashboardScreen.tsx` |

How the model is built:

- **The store.** The store is a `Storage` object holding `items: map<string, Json>`. JSON
  serialisation is the identity, so a key holds the parsed value. `Json` tags the three shapes the
  app writes: a favorites list, a preferences record and a stats record.
- **Store failures.** Every store call may throw. Whether it does is a boolean parameter
  (`readFails`, `writeFails`, `removeFails`) of the operation that makes the call.
- **Favorites methods.** Each favorites mutation (save, remove, clear) is a method that changes the store. Its
  contract equates the outcome and the new contents with a pure function of the old contents
  (`SaveFavoriteEffect`, `RemoveFavoriteEffect`, `ClearFavoritesEffect`). What the source promises
  is proved as lemmas about those functions.
- **Provider and screens.** The session provider and the screens are classes. Their fields are the
  source's `useState` slots. Each method states the new value of every field and the store's new
  contents.
- **Preference values.** Each preference field's type is a subset type of `string` holding exactly
  the literals of its TypeScript union. The code never checks these values at run time, so the
  model has no validation error.

Four facts about the code that the model follows:

- preferences are saved without any check that the four fields hold recognised values;
- `updateStats` merges onto the cached stats, not onto the stored record;
- loading does not refresh `lastActive`;
- loading reads preferences, then stats. A failure on the preferences read ends the load, so the
  stats read never happens.

## Model

| member | source | states |
|---|---|---|
| `FavoriteService.FindIndex` | src/services/favoriteService.ts:10 | -1 exactly when no entry has the id; otherwise the index of the first entry with that id |
| `FavoriteService.WithoutId` | src/services/favoriteService.ts:26 | the result holds exactly the entries whose id differs, is never longer, and equals the input when the id is absent |
| `FavoriteService.GetFavorites` | src/services/favoriteService.ts:35-43 | returns the stored list; returns `[]` when the read throws or the key is absent, and never throws |
| `FavoriteService.SaveFavorite` | src/services/favoriteService.ts:7-20 | outcome and new store contents are `SaveFavoriteEffect`: read (failing open), append if the id is new and write back, else write nothing |
| `FavoriteService.RemoveFavorite` | src/services/favoriteService.ts:23-32 | outcome and new store contents are `RemoveFavoriteEffect`: read (failing open), filter out the id, write back |
| `FavoriteService.IsFavorite` | src/services/favoriteService.ts:46-54 | true exactly when some entry of the list read has the id; false when the read throws |
| `FavoriteService.ClearFavorites` | src/services/favoriteService.ts:57-64 | removes the favorites key; a failed removal is reported and changes nothing |
| `FavoriteService.GetFavoritesCount` | src/services/favoriteService.ts:67-75 | equals the length of the list read; 0 when the read throws |
| `FavoriteService.SaveNewAppends` | src/services/favoriteService.ts:9-14 | saving a new id stores the earlier list unchanged, in order, with the cocktail appended: one entry longer |
| `FavoriteService.SaveExistingIsNoop` | src/services/favoriteService.ts:10-15 | saving an id already read succeeds without writing: the store is unchanged |
| `FavoriteService.SaveIdempotent` | src/services/favoriteService.ts:9-15 | saving the same cocktail twice leaves the store exactly as saving it once |
| `FavoriteService.SaveKeepsIdsUnique` | src/services/favoriteService.ts:10-13 | pairwise-distinct stored ids stay pairwise distinct after a save, whatever faults occur |
| `FavoriteService.SaveThenIsFavorite` | src/services/favoriteService.ts:7-15 | after a save that did not throw, the cocktail's id is stored |
| `FavoriteService.SaveAfterFailedReadKeepsOnlyCocktail` | src/services/favoriteService.ts:9-14 | a failed read followed by a successful write stores just `[cocktail]`, dropping the earlier list |
| `FavoriteService.SaveFailurePropagates` | src/services/favoriteService.ts:12-19 | a save throws exactly when it attempted a write and the write threw; then the store is unchanged |
| `FavoriteService.WithoutIdConcat` | src/services/favoriteService.ts:26 | filtering distributes over concatenation, so survivors keep their original order |
| `FavoriteService.WithoutIdKeepsUnique` | src/services/favoriteService.ts:26 | filtering a list with distinct ids leaves distinct ids |
| `FavoriteService.RemoveFilters` | src/services/favoriteService.ts:25-27 | a successful removal stores the old list minus every entry with the id, the rest in order, and the id is gone |
| `FavoriteService.RemoveKeepsIdsUnique` | src/services/favoriteService.ts:25-27 | pairwise-distinct stored ids stay pairwise distinct after a removal, whatever faults occur |
| `FavoriteService.ClearKeepsIdsUnique` | src/services/favoriteService.ts:57-59 | pairwise-distinct stored ids stay pairwise distinct after a clear, whatever faults occur |
| `FavoriteService.RemoveIdempotent` | src/services/favoriteService.ts:23-32 | removing the same id a second time succeeds and leaves the store exactly as the first removal left it |
| `FavoriteService.RemoveAbsentKeepsList` | src/services/favoriteService.ts:25-27 | removing an id that is not stored succeeds and stores an equal list |
| `FavoriteService.RemoveThenNotFavorite` | src/services/favoriteService.ts:23-27 | after a removal that did not throw, the id is not stored, even when the read failed |
| `FavoriteService.RemoveFailurePropagates` | src/services/favoriteService.ts:27-31 | a removal throws exactly when its write threw, and then the store is unchanged |
| `FavoriteService.SaveThenRemoveRestores` | src/services/favoriteService.ts:7-32 | removing a cocktail just appended by a save gives back the list from before the save |
| `FavoriteService.ClearEmpties` | src/services/favoriteService.ts:57-63 | after a successful clear the list reads as `[]`, so the count is 0; a failed clear is reported and changes nothing |
| `FavoriteService.FavoritesOpsFrame` | src/services/favoriteService.ts:7-64 | save, remove and clear change no key other than `favorites` |
| `FavoriteService.FavoritesOpsKeepShape` | src/services/favoriteService.ts:7-64 | when `favorites` holds a list or nothing, save, remove and clear leave it holding a list or nothing, whatever faults occur |
| `FavoriteService.MargaritaScenario` | src/services/favoriteService.ts:7-32 | on an empty store: saving "11007" makes it a favorite with count 1; removing it, twice, succeeds each time with count 0 |
| `UserContext.UserProvider.constructor` | src/contexts/UserContext.tsx:18-32 | preferences start null and stats start at `defaultStats`: zero counts, spirit "Vodka" |
| `UserContext.UserProvider.LoadUserData` | src/contexts/UserContext.tsx:38-58 | the new session is `LoadEffect` of the stored contents and the old session; the store is not changed |
| `UserContext.UserProvider.UpdatePreferences` | src/contexts/UserContext.tsx:60-68 | the cache holds the new preferences even when the write throws; the write's outcome is returned |
| `UserContext.UserProvider.UpdateStats` | src/contexts/UserContext.tsx:70-76 | the cache becomes the old stats merged with the partial record, that same record is written, and nothing is reported |
| `UserContext.UserProvider.ClearUserData` | src/contexts/UserContext.tsx:78-87 | preferences reset to null and stats to `defaultStats`; both keys are removed; a failed removal is reported and the reset stands |
| `UserContext.UseUser` | src/contexts/UserContext.tsx:100-106 | gives the provider's value when there is one, and otherwise the "useUser must be used within a UserProvider" error |
| `UserContext.MergeOverridesExactlyGivenFields` | src/contexts/UserContext.tsx:71 | each field of the merged stats is the partial record's value when it has that field, and the old value otherwise |
| `UserContext.MergeIdentityAndIdempotence` | src/contexts/UserContext.tsx:71 | merging an empty partial changes nothing; merging the same partial twice equals merging it once |
| `UserContext.MergeSequential` | src/contexts/UserContext.tsx:71 | two merges in a row equal one merge of the later partial spread over the earlier |
| `UserContext.MergeExample` | src/contexts/UserContext.tsx:71 | `{3, 5, "Rum", 2}` merged with `{cocktailsTried: 6}` is `{3, 6, "Rum", 2}` |
| `UserContext.LoadStopsAtPreferencesFailure` | src/contexts/UserContext.tsx:39-57 | a failed preferences read is swallowed, the stats read is skipped, and the session is unchanged |
| `UserContext.LoadWithNothingStored` | src/contexts/UserContext.tsx:41-54 | with neither key stored, preferences and stats stay as they were: null and the defaults on mount |
| `UserContext.LoadWithoutStatsKeepsStats` | src/contexts/UserContext.tsx:47-57 | with no stored stats record, or when the stats read throws and the error is swallowed, a load keeps the cached stats, whether or not preferences are stored or their read fails |
| `UserContext.LoadReplacesStatsWholesale` | src/contexts/UserContext.tsx:47-54 | a stored stats record becomes the cached stats wholesale, whatever the cached stats were |
| `UserContext.LoadPreferences` | src/contexts/UserContext.tsx:41-44 | a stored preferences record replaces the cached one; with none stored the cached value stays |
| `UserContext.PreferencesRoundTrip` | src/contexts/UserContext.tsx:41-63 | after a successful preferences write, the next load restores exactly those preferences |
| `UserContext.StatsRoundTrip` | src/contexts/UserContext.tsx:47-73 | after a successful stats write of a merged record, the next load restores exactly that record |
| `UserContext.ClearThenLoadKeepsReset` | src/contexts/UserContext.tsx:39-82 | after a successful clear, a load finds nothing and the session stays at null and the defaults, whatever faults occur |
| `UserContext.UserDataWritesKeepShapeAndFavorites` | src/contexts/UserContext.tsx:63-82 | the provider's writes keep its two keys holding the shape it writes, and leave the stored favorites unchanged |
| `UserContext.FavoritesWritesKeepUserData` | src/contexts/UserContext.tsx:15-16 | save, remove and clear of favorites leave both provider keys as they were |
| `OnboardingScreen.Onboarding.constructor` | src/screens/OnboardingScreen.tsx:18-23 | all four fields start as "", so the form starts incomplete |
| `OnboardingScreen.Onboarding.HandlePreferenceSelect` | src/screens/OnboardingScreen.tsx:30-35 | the form becomes the old form with the named field set to the value |
| `OnboardingScreen.Onboarding.PressOption` | src/screens/OnboardingScreen.tsx:59-150 | pressing an option button sets its field to that option; fields stay within their options and a complete form stays complete |
| `OnboardingScreen.Onboarding.PressContinue` | src/screens/OnboardingScreen.tsx:153-156 | navigates to Home exactly when the form is complete; changes nothing and writes nothing |
| `OnboardingScreen.CompleteIffEveryFieldSet` | src/screens/OnboardingScreen.tsx:37 | the form is complete exactly when none of the four fields is empty |
| `OnboardingScreen.SelectChangesOnlyNamedField` | src/screens/OnboardingScreen.tsx:30-35 | a selection sets the named field and leaves the other three unchanged |
| `OnboardingScreen.OptionListsMatchPreferenceTypes` | src/screens/OnboardingScreen.tsx:25-28 | there are 3, 4, 6 and 5 options, all non-empty, and each list is exactly its preference type's literals |
| `OnboardingScreen.SelectingAnOptionKeepsForm` | src/screens/OnboardingScreen.tsx:25-37 | choosing an option never empties a field, keeps fields within their options, and keeps a complete form complete |
| `OnboardingScreen.CompleteFormFitsPreferenceTypes` | src/types/index.ts:1-6 | a complete form filled from the buttons holds a recognised value in each of the four preference fields |
| `RecipeDetailsScreen.RecipeDetails.constructor` | src/screens/RecipeDetailsScreen.tsx:24-26 | the flag starts false |
| `RecipeDetailsScreen.RecipeDetails.CheckIfFavorite` | src/screens/RecipeDetailsScreen.tsx:32-35 | the flag becomes whether the list read holds the cocktail's id |
| `RecipeDetailsScreen.RecipeDetails.HandleFavoriteToggle` | src/screens/RecipeDetailsScreen.tsx:37-51 | removes when flagged, saves otherwise. On success the flag flips and agrees with the store. On failure the flag is unchanged and the error alert shows |
| `RecipeDetailsScreen.RecipeDetails.GetIngredients` | src/screens/RecipeDetailsScreen.tsx:53-66 | the loop builds `IngredientsUpTo(cocktail, 15)`, at most 15 entries |
| `RecipeDetailsScreen.Instructions` | src/screens/RecipeDetailsScreen.tsx:68-70 | the recipe's instructions when non-empty, else "No instructions available"; never empty |
| `RecipeDetailsScreen.GlassLabel` | src/screens/RecipeDetailsScreen.tsx:151 | the recipe's glass when non-empty, else "Highball Glass"; never empty |
| `RecipeDetailsScreen.FilledSlotsExact` | src/screens/RecipeDetailsScreen.tsx:55-58 | the filled-slot list holds each slot with a non-empty ingredient exactly once, in increasing order, and nothing else |
| `RecipeDetailsScreen.IngredientsPerFilledSlot` | src/screens/RecipeDetailsScreen.tsx:55-63 | the k-th ingredient is the entry of the k-th filled slot: one per filled slot, in slot order, at most n |
| `RecipeDetailsScreen.IngredientEntriesAreReadable` | src/screens/RecipeDetailsScreen.tsx:58-62 | every entry has a non-empty ingredient; its measure is the slot's measure when non-empty, else "To taste" |
| `RecipeDetailsScreen.NoFilledSlotNoIngredients` | src/screens/RecipeDetailsScreen.tsx:55-65 | a recipe with no non-empty ingredient slot lists no ingredients |
| `UserDashboardScreen.UserDashboard.constructor` | src/screens/UserDashboardScreen.tsx:21-27 | starts with no favourites and stats `{0, 0, "Vodka"}` |
| `UserDashboardScreen.UserDashboard.LoadUserData` | src/screens/UserDashboardScreen.tsx:33-44 | favourites become the list read and `totalFavorites` its length; the other stats fields are unchanged; "Clear All" shows exactly when the list is non-empty |
| `UserDashboardScreen.UserDashboard.ConfirmClearFavorites` | src/screens/UserDashboardScreen.tsx:59-71 | removes the favorites key. On success: list `[]`, `totalFavorites` 0, other stats unchanged, "Clear All" hidden. On failure nothing on the screen changes |

## Left out

- The remote recipe API client (`src/services/cocktailService.ts`) is not part of this model. It is
  HTTP fetching, and `fetchRandomCocktails` fans out concurrent requests. Only its `Cocktail`
  record shape is used.
- Rendering, styling, navigation and alerts are not part of this model. That covers
  `CocktailCard.tsx`, `HomeScreen.tsx`, `SearchScreen.tsx`, `App.tsx` and every `StyleSheet`. The
  screens' alerts appear only as the result value saying which alert the handler shows.
- The recipe screen's `getAlcoholContent` and `getFlavorProfile` are fixed placeholder strings and
  are not modelled. The dashboard's `recentCocktails` is never set and is not modelled.
- `AsyncStorage`, `JSON.stringify`/`JSON.parse` and `Date` parsing are foreign code. The store is
  an abstract map whose calls may throw. Serialisation is the identity. `lastActive` is an
  opaque timestamp. The clock read for `defaultStats` is a constructor parameter.
- A key holding a value of another shape (for example a stats record under `favorites`) is read as
  a parse failure. The favorites list then reads as `[]` and the provider's load stops. The app
  never writes such values: `FavoritesOpsFrame` and `FavoritesWritesKeepUserData` show that the
  favorites operations write only their own key, `FavoritesOpsKeepShape` that they keep a list (or
  nothing) there, and `UserDataWritesKeepShapeAndFavorites` that the provider's writes keep its two
  keys holding its own shapes and leave `favorites` alone. JavaScript would parse such a value and fail later, or not at all.
- A failed `multiRemove` is modelled as removing neither key. Partial removal is not modelled.
- Async interleavings are not modelled; each operation is one atomic step. So the
  last-writer-wins race between concurrent read-modify-write calls is absent. So is the stale
  closure that makes two `updateStats` calls in one render both merge onto the same `stats`. The
  stats write is not awaited in the source; here it happens inside the call and its outcome is
  ignored.
- A `Partial<UserStats>` whose property is explicitly `undefined` would overwrite that field with
  `undefined`. The model's partial record only has fields that are present or absent.
- `handlePreferenceSelect` accepts any string as its property name. Every caller passes one of the
  four field names, so the model takes one of those four.
- The `catch` branches of `isFavorite`, `getFavoritesCount` and the dashboard's `loadUserData` are
  not modelled. `getFavorites` itself never throws. These branches can run only when the stored
  favorites text parses to something other than a list of objects. The text `"null"` makes
  `getFavorites` return `null`, and then `.some` or `.length` throws. A list holding `null` makes
  `fav.idDrink` inside `.some` throw. The app never writes such a value. See the line above on values of a foreign shape, which the model reads as `[]`.
- `console.error` logging is not modelled. Neither are the unused types `CocktailStats`,
  `SearchFilters` and `NavigationProps`.
- The Cancel button of the clear-favorites dialog changes nothing and has no member. The mount
  effects (`loadUserData`, `checkIfFavorite`) are methods for the caller to run after the
  constructor.

=== FILE: async_store.dfy ===
/** The device's persistent key-value store. Serialisation is the identity: a key holds the
    parsed value directly. Every call may throw; whether it does is a parameter of the call. */
module AsyncStore {
  import opened Types

  /** The shapes of value the application stores. */
  datatype Json =
    | FavoritesJson(list: seq<Cocktail>)
    | PreferencesJson(prefs: UserPreferences)
    | StatsJson(stats: UserStats)

  type Items = map<string, Json>

  /** What `getItem` resolves to: the value or `null`, or a rejection. */
  datatype ReadResult = Read(value: Option<Json>) | ReadFailed

  /** Whether an awaited store call (and so the operation awaiting it) completed or threw. */
  datatype Outcome = Pass | Fail

  function GetItemResult(items: Items, key: string, fails: bool): ReadResult {
    if fails then ReadFailed
    else if key in items then Read(Some(items[key]))
    else Read(None)
  }

  /** `setItem`: on success the key holds the value and every other key is as it was. */
  function SetItemEffect(items: Items, key: string, value: Json, fails: bool): (r: (Outcome, Items))
    ensures r.0 == Pass <==> !fails
    ensures r.0 == Fail ==> r.1 == items
    ensures r.0 == Pass ==> key in r.1 && r.1[key] == value
    ensures r.1 - {key} == items - {key}
  {
    if fails then (Fail, items) else (Pass, items[key := value])
  }

  /** `removeItem` and `multiRemove`: on success none of the keys is left; a failed call removes nothing. */
  function RemoveEffect(items: Items, keys: set<string>, fails: bool): (r: (Outcome, Items))
    ensures r.0 == Pass <==> !fails
    ensures r.0 == Fail ==> r.1 == items
    ensures r.0 == Pass ==> forall k :: k in keys ==> k !in r.1
    ensures r.1 - keys == items - keys
  {
    if fails then (Fail, items) else (Pass, items - keys)
  }

  class Storage {
    var items: Items

    constructor (initial: Items)
      ensures items == initial
    {
      items := initial;
    }

    method GetItem(key: string, fails: bool) returns (r: ReadResult)
      ensures r == GetItemResult(items, key, fails)
    {
      if fails {
        r := ReadFailed;
      } else if key in items {
        r := Read(Some(items[key]));
      } else {
        r := Read(None);
      }
    }

    method SetItem(key: string, value: Json, fails: bool) returns (r: Outcome)
      modifies this
      ensures (r, items) == SetItemEffect(old(items), key, value, fails)
    {
      if fails {
        r := Fail;
      } else {
        items := items[key := value];
        r := Pass;
      }
    }

    method RemoveItem(key: string, fails: bool) returns (r: Outcome)
      modifies this
      ensures (r, items) == RemoveEffect(old(items), {key}, fails)
    {
      if fails {
        r := Fail;
      } else {
        items := items - {key};
        r := Pass;
      }
    }

    method MultiRemove(keys: seq<string>, fails: bool) returns (r: Outcome)
      modifies this
      ensures (r, items) == RemoveEffect(old(items), (set k | k in keys), fails)
    {
      if fails {
        r := Fail;
      } else {
        items := items - (set k | k in keys);
        r := Pass;
      }
    }
  }
}

=== FILE: favorite_service.dfy ===
/** The favorites repository: an insertion-ordered list of cocktails, deduplicated by `idDrink`,
    kept as one whole value under the key "favorites". Every mutation reads the whole list,
    changes it and writes it back; reads fail open. */
module FavoriteService {
  import opened Types
  import opened AsyncStore

  const FAVORITES_KEY := "favorites"

  // ---------------------------------------------------------------------------
  // The list operations the service uses

  /** Some entry has the given id (`favorites.some(fav => fav.idDrink === id)`). */
  predicate HasId(favs: seq<Cocktail>, id: string) {
    exists i :: 0 <= i < |favs| && favs[i].idDrink == id
  }

  /** No id occurs twice. */
  predicate UniqueIds(favs: seq<Cocktail>) {
    forall i, j :: 0 <= i < j < |favs| ==> favs[i].idDrink != favs[j].idDrink
  }

  /** `favorites.findIndex(fav => fav.idDrink === id)`: the first entry with that id, or -1. */
  function FindIndex(favs: seq<Cocktail>, id: string): (i: int)
    ensures -1 <= i < |favs|
    ensures i == -1 <==> !HasId(favs, id)
    ensures 0 <= i ==> favs[i].idDrink == id && forall j :: 0 <= j < i ==> favs[j].idDrink != id
  {
    if |favs| == 0 then -1
    else if favs[0].idDrink == id then 0
    else
      var k := FindIndex(favs[1..], id);
      assert HasId(favs, id) ==> HasId(favs[1..], id) by {
        if HasId(favs, id) {
          var w :| 0 <= w < |favs| && favs[w].idDrink == id;
          assert favs[1..][w - 1].idDrink == id;
        }
      }
      assert k >= 0 ==> favs[k + 1] == favs[1..][k];
      if k == -1 then -1 else k + 1
  }

  /** `favorites.filter(fav => fav.idDrink !== id)`. */
  function WithoutId(favs: seq<Cocktail>, id: string): (r: seq<Cocktail>)
    ensures forall c :: c in r <==> c in favs && c.idDrink != id
    ensures |r| <= |favs|
    ensures !HasId(favs, id) ==> r == favs
  {
    if |favs| == 0 then []
    else
      assert !HasId(favs, id) ==> !HasId(favs[1..], id) by {
        if HasId(favs[1..], id) {
          var w :| 0 <= w < |favs[1..]| && favs[1..][w].idDrink == id;
          assert favs[w + 1].idDrink == id;
        }
      }
      assert favs == [favs[0]] + favs[1..];
      (if favs[0].idDrink != id then [favs[0]] else []) + WithoutId(favs[1..], id)
  }

  // ---------------------------------------------------------------------------
  // The operations as functions of the store's contents

  /** The list a `getItem` result parses to, failing open: a rejected read, an absent key and a
      value that is not a list all give []. */
  function ParseFavorites(r: ReadResult): seq<Cocktail> {
    match r
    case Read(Some(FavoritesJson(list))) => list
    case _ => []
  }

  /** What `getFavorites` returns. */
  function ReadFavorites(items: Items, readFails: bool): seq<Cocktail> {
    ParseFavorites(GetItemResult(items, FAVORITES_KEY, readFails))
  }

  /** The list stored under the favorites key: what a read that does not throw returns. */
  function StoredFavorites(items: Items): seq<Cocktail> {
    ReadFavorites(items, false)
  }

  function SaveFavoriteEffect(items: Items, cocktail: Cocktail, readFails: bool, writeFails: bool): (Outcome, Items) {
    var favorites := ReadFavorites(items, readFails);
    if FindIndex(favorites, cocktail.idDrink) == -1 then
      SetItemEffect(items, FAVORITES_KEY, FavoritesJson(favorites + [cocktail]), writeFails)
    else
      (Pass, items)
  }

  function RemoveFavoriteEffect(items: Items, id: string, readFails: bool, writeFails: bool): (Outcome, Items) {
    SetItemEffect(items, FAVORITES_KEY, FavoritesJson(WithoutId(ReadFavorites(items, readFails), id)), writeFails)
  }

  function ClearFavoritesEffect(items: Items, removeFails: bool): (Outcome, Items) {
    RemoveEffect(items, {FAVORITES_KEY}, removeFails)
  }

  // ---------------------------------------------------------------------------
  // The service

  method GetFavorites(store: Storage, readFails: bool) returns (favorites: seq<Cocktail>)
    ensures favorites == ReadFavorites(store.items, readFails)
    ensures readFails || FAVORITES_KEY !in store.items ==> favorites == []
    ensures !readFails ==> favorites == StoredFavorites(store.items)
  {
    var json := store.GetItem(FAVORITES_KEY, readFails);
    favorites := ParseFavorites(json);
  }

  method SaveFavorite(store: Storage, cocktail: Cocktail, readFails: bool, writeFails: bool) returns (r: Outcome)
    modifies store
    ensures (r, store.items) == SaveFavoriteEffect(old(store.items), cocktail, readFails, writeFails)
  {
    var favorites := GetFavorites(store, readFails);
    var existingIndex := FindIndex(favorites, cocktail.idDrink);
    if existingIndex == -1 {
      favorites := favorites + [cocktail];
      r := store.SetItem(FAVORITES_KEY, FavoritesJson(favorites), writeFails);
    } else {
      r := Pass;
    }
  }

  method RemoveFavorite(store: Storage, cocktailId: string, readFails: bool, writeFails: bool) returns (r: Outcome)
    modifies store
    ensures (r, store.items) == RemoveFavoriteEffect(old(store.items), cocktailId, readFails, writeFails)
  {
    var favorites := GetFavorites(store, readFails);
    var filteredFavorites := WithoutId(favorites, cocktailId);
    r := store.SetItem(FAVORITES_KEY, FavoritesJson(filteredFavorites), writeFails);
  }

  method IsFavorite(store: Storage, cocktailId: string, readFails: bool) returns (b: bool)
    ensures b <==> HasId(ReadFavorites(store.items, readFails), cocktailId)
    ensures readFails ==> !b
  {
    var favorites := GetFavorites(store, readFails);
    b := exists i :: 0 <= i < |favorites| && favorites[i].idDrink == cocktailId;
  }

  method ClearFavorites(store: Storage, removeFails: bool) returns (r: Outcome)
    modifies store
    ensures (r, store.items) == ClearFavoritesEffect(old(store.items), removeFails)
  {
    r := store.RemoveItem(FAVORITES_KEY, removeFails);
  }

  method GetFavoritesCount(store: Storage, readFails: bool) returns (n: nat)
    ensures n == |ReadFavorites(store.items, readFails)|
    ensures readFails ==> n == 0
  {
    var favorites := GetFavorites(store, readFails);
    n := |favorites|;
  }

  // ---------------------------------------------------------------------------
  // Properties

  /** Saving an id that the read list lacks appends the cocktail after the existing entries. */
  lemma SaveNewAppends(items: Items, cocktail: Cocktail, readFails: bool)
    requires !HasId(ReadFavorites(items, readFails), cocktail.idDrink)
    ensures var (r, after) := SaveFavoriteEffect(items, cocktail, readFails, false);
      && r == Pass
      && StoredFavorites(after) == ReadFavorites(items, readFails) + [cocktail]
      && |StoredFavorites(after)| == |ReadFavorites(items, readFails)| + 1
  {
  }

  /** Saving an id that is already stored writes nothing. */
  lemma SaveExistingIsNoop(items: Items, cocktail: Cocktail, readFails: bool, writeFails: bool)
    requires HasId(ReadFavorites(items, readFails), cocktail.idDrink)
    ensures SaveFavoriteEffect(items, cocktail, readFails, writeFails) == (Pass, items)
  {
  }

  /** Saving the same cocktail twice leaves the store as saving it once. */
  lemma SaveIdempotent(items: Items, cocktail: Cocktail)
    ensures var once := SaveFavoriteEffect(items, cocktail, false, false).1;
      SaveFavoriteEffect(once, cocktail, false, false) == (Pass, once)
  {
    var once := SaveFavoriteEffect(items, cocktail, false, false).1;
    var favs := StoredFavorites(items);
    if !HasId(favs, cocktail.idDrink) {
      assert StoredFavorites(once)[|favs|] == cocktail;
    }
    assert HasId(StoredFavorites(once), cocktail.idDrink);
  }

  /** Pairwise-distinct ids stay pairwise distinct across a save, whatever faults occur. */
  lemma SaveKeepsIdsUnique(items: Items, cocktail: Cocktail, readFails: bool, writeFails: bool)
    requires UniqueIds(StoredFavorites(items))
    ensures UniqueIds(StoredFavorites(SaveFavoriteEffect(items, cocktail, readFails, writeFails).1))
  {
    var favs := ReadFavorites(items, readFails);
    if !HasId(favs, cocktail.idDrink) && !writeFails {
      var after := favs + [cocktail];
      assert UniqueIds(favs);
      forall i, j | 0 <= i < j < |after| ensures after[i].idDrink != after[j].idDrink {
        if j == |favs| {
          assert after[i] == favs[i];
        }
      }
    }
  }

  /** After a save that did not throw, the cocktail's id is a favorite. */
  lemma SaveThenIsFavorite(items: Items, cocktail: Cocktail, readFails: bool, writeFails: bool)
    ensures var (r, after) := SaveFavoriteEffect(items, cocktail, readFails, writeFails);
      r == Pass ==> HasId(StoredFavorites(after), cocktail.idDrink)
  {
    var favs := ReadFavorites(items, readFails);
    if !HasId(favs, cocktail.idDrink) && !writeFails {
      assert (favs + [cocktail])[|favs|] == cocktail;
    }
  }

  /** A save whose read fails and whose write succeeds replaces the stored list by the one cocktail. */
  lemma SaveAfterFailedReadKeepsOnlyCocktail(items: Items, cocktail: Cocktail)
    ensures var (r, after) := SaveFavoriteEffect(items, cocktail, true, false);
      r == Pass && StoredFavorites(after) == [cocktail]
  {
  }

  /** A save throws exactly when it tried to write and the write threw; a throwing save changes nothing. */
  lemma SaveFailurePropagates(items: Items, cocktail: Cocktail, readFails: bool, writeFails: bool)
    ensures var (r, after) := SaveFavoriteEffect(items, cocktail, readFails, writeFails);
      && (r == Fail <==> writeFails && !HasId(ReadFavorites(items, readFails), cocktail.idDrink))
      && (r == Fail ==> after == items)
  {
  }

  /** `filter` distributes over concatenation: it keeps the survivors in their original order. */
  lemma {:induction false} WithoutIdConcat(a: seq<Cocktail>, b: seq<Cocktail>, id: string)
    ensures WithoutId(a + b, id) == WithoutId(a, id) + WithoutId(b, id)
  {
    if |a| == 0 {
      assert a + b == b;
    } else {
      assert (a + b)[1..] == a[1..] + b;
      WithoutIdConcat(a[1..], b, id);
    }
  }

  /** Filtering keeps the ids of the survivors pairwise distinct. */
  lemma {:induction false} WithoutIdKeepsUnique(favs: seq<Cocktail>, id: string)
    requires UniqueIds(favs)
    ensures UniqueIds(WithoutId(favs, id))
  {
    if |favs| > 0 {
      var rest := WithoutId(favs[1..], id);
      WithoutIdKeepsUnique(favs[1..], id);
      if favs[0].idDrink != id {
        var r := [favs[0]] + rest;
        forall j | 0 < j < |r| ensures r[0].idDrink != r[j].idDrink {
          assert r[j] in favs[1..];
          var k :| 0 <= k < |favs[1..]| && favs[1..][k] == r[j];
          assert favs[k + 1] == r[j];
        }
      }
    }
  }

  /** A successful removal stores the read list with every entry of that id dropped, the rest in order. */
  lemma RemoveFilters(items: Items, id: string)
    ensures var (r, after) := RemoveFavoriteEffect(items, id, false, false);
      && r == Pass
      && StoredFavorites(after) == WithoutId(StoredFavorites(items), id)
      && !HasId(StoredFavorites(after), id)
      && forall c :: c in StoredFavorites(after) <==> c in StoredFavorites(items) && c.idDrink != id
  {
  }

  /** Pairwise-distinct ids stay pairwise distinct across a removal, whatever faults occur. */
  lemma RemoveKeepsIdsUnique(items: Items, id: string, readFails: bool, writeFails: bool)
    requires UniqueIds(StoredFavorites(items))
    ensures UniqueIds(StoredFavorites(RemoveFavoriteEffect(items, id, readFails, writeFails).1))
  {
    WithoutIdKeepsUnique(ReadFavorites(items, readFails), id);
  }

  /** Pairwise-distinct ids stay pairwise distinct across a clear, whatever faults occur. */
  lemma ClearKeepsIdsUnique(items: Items, removeFails: bool)
    requires UniqueIds(StoredFavorites(items))
    ensures UniqueIds(StoredFavorites(ClearFavoritesEffect(items, removeFails).1))
  {
  }

  /** Removing the same id twice leaves the store exactly as removing it once. */
  lemma RemoveIdempotent(items: Items, id: string)
    ensures var once := RemoveFavoriteEffect(items, id, false, false).1;
      RemoveFavoriteEffect(once, id, false, false) == (Pass, once)
  {
    var once := RemoveFavoriteEffect(items, id, false, false).1;
    RemoveThenNotFavorite(items, id, false, false);
    RemoveAbsentKeepsList(once, id);
    assert once[FAVORITES_KEY := FavoritesJson(StoredFavorites(once))] == once;
  }

  /** Removing an id that is not stored succeeds and rewrites an equal list. */
  lemma RemoveAbsentKeepsList(items: Items, id: string)
    requires !HasId(StoredFavorites(items), id)
    ensures var (r, after) := RemoveFavoriteEffect(items, id, false, false);
      r == Pass && StoredFavorites(after) == StoredFavorites(items)
  {
  }

  /** After a removal that did not throw, the id is not a favorite, whatever the read saw. */
  lemma RemoveThenNotFavorite(items: Items, id: string, readFails: bool, writeFails: bool)
    ensures var (r, after) := RemoveFavoriteEffect(items, id, readFails, writeFails);
      r == Pass ==> !HasId(StoredFavorites(after), id)
  {
  }

  /** A removal throws exactly when its write threw, and then changes nothing. */
  lemma RemoveFailurePropagates(items: Items, id: string, readFails: bool, writeFails: bool)
    ensures var (r, after) := RemoveFavoriteEffect(items, id, readFails, writeFails);
      (r == Fail <==> writeFails) && (r == Fail ==> after == items)
  {
  }

  /** Removing a cocktail that a save has just appended gives back the list from before the save. */
  lemma SaveThenRemoveRestores(items: Items, cocktail: Cocktail)
    requires !HasId(StoredFavorites(items), cocktail.idDrink)
    ensures var saved := SaveFavoriteEffect(items, cocktail, false, false).1;
      StoredFavorites(RemoveFavoriteEffect(saved, cocktail.idDrink, false, false).1) == StoredFavorites(items)
  {
    var favs := StoredFavorites(items);
    WithoutIdConcat(favs, [cocktail], cocktail.idDrink);
    assert WithoutId([cocktail], cocktail.idDrink) == [];
  }

  /** After a successful clear the list reads as empty, so its count is 0; a failed clear changes nothing. */
  lemma ClearEmpties(items: Items, removeFails: bool)
    ensures var (r, after) := ClearFavoritesEffect(items, removeFails);
      && (r == Fail <==> removeFails)
      && (r == Pass ==> StoredFavorites(after) == [])
      && (r == Fail ==> after == items)
  {
  }

  /** The favorites operations touch no key but the favorites key. */
  lemma FavoritesOpsFrame(items: Items, cocktail: Cocktail, id: string, readFails: bool, writeFails: bool, removeFails: bool)
    ensures SaveFavoriteEffect(items, cocktail, readFails, writeFails).1 - {FAVORITES_KEY} == items - {FAVORITES_KEY}
    ensures RemoveFavoriteEffect(items, id, readFails, writeFails).1 - {FAVORITES_KEY} == items - {FAVORITES_KEY}
    ensures ClearFavoritesEffect(items, removeFails).1 - {FAVORITES_KEY} == items - {FAVORITES_KEY}
  {
  }

  /** The favorites key holds a list, or nothing, before and after every favorites operation. */
  lemma FavoritesOpsKeepShape(items: Items, cocktail: Cocktail, id: string, readFails: bool, writeFails: bool, removeFails: bool)
    requires FAVORITES_KEY in items ==> items[FAVORITES_KEY].FavoritesJson?
    ensures var after := SaveFavoriteEffect(items, cocktail, readFails, writeFails).1;
      FAVORITES_KEY in after ==> after[FAVORITES_KEY].FavoritesJson?
    ensures var after := RemoveFavoriteEffect(items, id, readFails, writeFails).1;
      FAVORITES_KEY in after ==> after[FAVORITES_KEY].FavoritesJson?
    ensures var after := ClearFavoritesEffect(items, removeFails).1;
      FAVORITES_KEY in after ==> after[FAVORITES_KEY].FavoritesJson?
  {
  }

  /** Adding a Margarita (id "11007") to an empty store, removing it, then removing it again. */
  lemma MargaritaScenario(margarita: Cocktail)
    requires margarita.idDrink == "11007"
    ensures var (r1, s1) := SaveFavoriteEffect(map[], margarita, false, false);
      var (r2, s2) := RemoveFavoriteEffect(s1, "11007", false, false);
      var (r3, s3) := RemoveFavoriteEffect(s2, "11007", false, false);
      && r1 == Pass && HasId(StoredFavorites(s1), "11007") && |StoredFavorites(s1)| == 1
      && r2 == Pass && |StoredFavorites(s2)| == 0
      && r3 == Pass && |StoredFavorites(s3)| == 0
  {
    var s1 := SaveFavoriteEffect(map[], margarita, false, false).1;
    assert StoredFavorites(s1)[0] == margarita;
  }
}

=== FILE: onboarding_screen.dfy ===
/** The onboarding screen's preference form: four text fields that start empty, are set one at a
    time from fixed option lists, and gate the "Get Started" button. */
module OnboardingScreen {
  import opened Types

  /** The four property names `handlePreferenceSelect` is called with. */
  datatype Category = DrinkStrengthField | SweetnessField | BaseLiquorField | MoodField

  datatype PreferenceForm = PreferenceForm(drinkStrength: string, sweetness: string, baseLiquor: string, mood: string)

  const EMPTY_FORM := PreferenceForm("", "", "", "")

  const DRINK_STRENGTHS: seq<string> := ["Light", "Medium", "Strong"]
  const SWEETNESS_LEVELS: seq<string> := ["Not Sweet", "Slightly Sweet", "Sweet", "Very Sweet"]
  const BASE_LIQUORS: seq<string> := ["Vodka", "Whiskey", "Rum", "Gin", "Tequila", "Brandy"]
  const MOODS: seq<string> := ["Relaxed", "Energetic", "Social", "Romantic", "Adventurous"]

  /** The buttons offered for a field. */
  function Options(category: Category): seq<string> {
    match category
    case DrinkStrengthField => DRINK_STRENGTHS
    case SweetnessField => SWEETNESS_LEVELS
    case BaseLiquorField => BASE_LIQUORS
    case MoodField => MOODS
  }

  function Field(form: PreferenceForm, category: Category): string {
    match category
    case DrinkStrengthField => form.drinkStrength
    case SweetnessField => form.sweetness
    case BaseLiquorField => form.baseLiquor
    case MoodField => form.mood
  }

  /** `{ ...prev, [category]: value }`. */
  function WithField(form: PreferenceForm, category: Category, value: string): PreferenceForm {
    match category
    case DrinkStrengthField => form.(drinkStrength := value)
    case SweetnessField => form.(sweetness := value)
    case BaseLiquorField => form.(baseLiquor := value)
    case MoodField => form.(mood := value)
  }

  /** `Object.values(preferences)`, in the order the properties were created. */
  function Values(form: PreferenceForm): seq<string> {
    [form.drinkStrength, form.sweetness, form.baseLiquor, form.mood]
  }

  /** `Object.values(preferences).every(value => value !== '')`. */
  predicate IsComplete(form: PreferenceForm) {
    forall i :: 0 <= i < |Values(form)| ==> Values(form)[i] != ""
  }

  /** Every field is unset or holds one of its options. */
  predicate FromOptions(form: PreferenceForm) {
    forall c: Category :: Field(form, c) == "" || Field(form, c) in Options(c)
  }

  datatype Route = Home

  class Onboarding {
    var preferences: PreferenceForm

    constructor ()
      ensures preferences == EMPTY_FORM
      ensures !IsComplete(preferences) && FromOptions(preferences)
    {
      preferences := EMPTY_FORM;
      assert Values(EMPTY_FORM)[0] == "";
    }

    method HandlePreferenceSelect(category: Category, value: string)
      modifies this
      ensures preferences == WithField(old(preferences), category, value)
    {
      preferences := WithField(preferences, category, value);
    }

    /** The `onPress` of the `index`-th option button of a field. */
    method PressOption(category: Category, index: nat)
      requires index < |Options(category)|
      modifies this
      ensures preferences == WithField(old(preferences), category, Options(category)[index])
      ensures old(FromOptions(preferences)) ==> FromOptions(preferences)
      ensures old(IsComplete(preferences)) ==> IsComplete(preferences)
    {
      SelectingAnOptionKeepsForm(preferences, category, index);
      HandlePreferenceSelect(category, Options(category)[index]);
    }

    /** The "Get Started" button: disabled unless the form is complete; it only navigates. */
    method PressContinue() returns (navigatedTo: Option<Route>)
      ensures navigatedTo == Some(Home) <==> IsComplete(preferences)
      ensures navigatedTo.None? <==> exists c :: Field(preferences, c) == ""
    {
      CompleteIffEveryFieldSet(preferences);
      if IsComplete(preferences) {
        navigatedTo := Some(Home);
      } else {
        navigatedTo := None;
      }
    }
  }

  // ---------------------------------------------------------------------------
  // Properties

  /** The form is complete exactly when none of the four fields is empty. */
  lemma CompleteIffEveryFieldSet(form: PreferenceForm)
    ensures IsComplete(form) <==> forall c :: Field(form, c) != ""
  {
    if !IsComplete(form) {
      var i :| 0 <= i < 4 && Values(form)[i] == "";
      var c := [DrinkStrengthField, SweetnessField, BaseLiquorField, MoodField][i];
      assert Field(form, c) == "";
    } else {
      forall c ensures Field(form, c) != "" {
        match c
        case DrinkStrengthField => assert Values(form)[0] != "";
        case SweetnessField => assert Values(form)[1] != "";
        case BaseLiquorField => assert Values(form)[2] != "";
        case MoodField => assert Values(form)[3] != "";
      }
    }
  }

  /** Selecting a value sets the named field and leaves the other three as they were. */
  lemma SelectChangesOnlyNamedField(form: PreferenceForm, category: Category, value: string)
    ensures Field(WithField(form, category, value), category) == value
    ensures forall c :: c != category ==> Field(WithField(form, category, value), c) == Field(form, c)
  {
  }

  /** The option lists hold 3, 4, 6 and 5 non-empty values: exactly the literals of the preference types. */
  lemma OptionListsMatchPreferenceTypes()
    ensures |DRINK_STRENGTHS| == 3 && |SWEETNESS_LEVELS| == 4 && |BASE_LIQUORS| == 6 && |MOODS| == 5
    ensures DRINK_STRENGTHS == DRINK_STRENGTH_VALUES && SWEETNESS_LEVELS == SWEETNESS_VALUES
    ensures BASE_LIQUORS == BASE_LIQUOR_VALUES && MOODS == MOOD_VALUES
    ensures forall c, i :: 0 <= i < |Options(c)| ==> Options(c)[i] != ""
  {
  }

  /** Pressing an option keeps every field within its options and never empties a set field,
      so a complete form stays complete. */
  lemma SelectingAnOptionKeepsForm(form: PreferenceForm, category: Category, index: nat)
    requires index < |Options(category)|
    ensures FromOptions(form) ==> FromOptions(WithField(form, category, Options(category)[index]))
    ensures forall c :: Field(form, c) != "" ==> Field(WithField(form, category, Options(category)[index]), c) != ""
    ensures IsComplete(form) ==> IsComplete(WithField(form, category, Options(category)[index]))
  {
    var value := Options(category)[index];
    var after := WithField(form, category, value);
    assert value != "" && value in Options(category);
    SelectChangesOnlyNamedField(form, category, value);
    CompleteIffEveryFieldSet(form);
    CompleteIffEveryFieldSet(after);
  }

  /** A complete form filled from the buttons holds a value of each preference type. */
  lemma CompleteFormFitsPreferenceTypes(form: PreferenceForm)
    requires FromOptions(form) && IsComplete(form)
    ensures form.drinkStrength in DRINK_STRENGTH_VALUES && form.sweetness in SWEETNESS_VALUES
    ensures form.baseLiquor in BASE_LIQUOR_VALUES && form.mood in MOOD_VALUES
  {
    CompleteIffEveryFieldSet(form);
    assert Field(form, DrinkStrengthField) != "" && Field(form, SweetnessField) != "";
    assert Field(form, BaseLiquorField) != "" && Field(form, MoodField) != "";
  }
}

=== FILE: recipe_details_screen.dfy ===
/** The recipe screen's logic: the ingredient list built from the fifteen numbered slots, the text
    fallbacks, and the favourite flag kept in step with the favorites repository. */
module RecipeDetailsScreen {
  import opened Types
  import opened AsyncStore
  import FavoriteService

  const SLOT_COUNT := 15
  const TO_TASTE := "To taste"
  const NO_INSTRUCTIONS := "No instructions available"
  const DEFAULT_GLASS := "Highball Glass"

  datatype Ingredient = Ingredient(ingredient: string, measure: string)

  /** The numbered property `n` (counting from 1); missing when the record does not have it. */
  function Slot(values: seq<Option<string>>, n: int): Option<string> {
    if 1 <= n <= |values| then values[n - 1] else None
  }

  predicate Filled(c: Cocktail, n: int) {
    Truthy(Slot(c.strIngredient, n))
  }

  /** The entry a filled slot contributes: its measure, or "To taste" when that is missing or empty. */
  function Entry(c: Cocktail, n: int): Ingredient
    requires Filled(c, n)
  {
    var measure := Slot(c.strMeasure, n);
    Ingredient(Slot(c.strIngredient, n).value, if Truthy(measure) then measure.value else TO_TASTE)
  }

  /** The list `getIngredients` has built once its loop has looked at slots 1..n. */
  function IngredientsUpTo(c: Cocktail, n: nat): seq<Ingredient> {
    if n == 0 then []
    else IngredientsUpTo(c, n - 1) + (if Filled(c, n) then [Entry(c, n)] else [])
  }

  /** The filled slots among 1..n, in increasing order. */
  function FilledSlots(c: Cocktail, n: nat): seq<int> {
    if n == 0 then []
    else FilledSlots(c, n - 1) + (if Filled(c, n) then [n] else [])
  }

  /** `cocktail.strInstructions || 'No instructions available'`. */
  function Instructions(c: Cocktail): (r: string)
    ensures r != ""
    ensures Truthy(c.strInstructions) ==> r == c.strInstructions.value
    ensures !Truthy(c.strInstructions) ==> r == NO_INSTRUCTIONS
  {
    if Truthy(c.strInstructions) then c.strInstructions.value else NO_INSTRUCTIONS
  }

  /** `cocktail.strGlass || 'Highball Glass'`. */
  function GlassLabel(c: Cocktail): (r: string)
    ensures r != ""
    ensures Truthy(c.strGlass) ==> r == c.strGlass.value
    ensures !Truthy(c.strGlass) ==> r == DEFAULT_GLASS
  {
    if Truthy(c.strGlass) then c.strGlass.value else DEFAULT_GLASS
  }

  /** The alert the toggle shows. */
  datatype Alert = AddedToFavorites | RemovedFromFavorites | FailedToUpdateFavorites

  class RecipeDetails {
    const cocktail: Cocktail
    const store: Storage
    var isFavorited: bool

    constructor (cocktail: Cocktail, store: Storage)
      ensures this.cocktail == cocktail && this.store == store && !isFavorited
    {
      this.cocktail := cocktail;
      this.store := store;
      isFavorited := false;
    }

    method CheckIfFavorite(readFails: bool)
      modifies this
      ensures isFavorited == FavoriteService.HasId(FavoriteService.ReadFavorites(store.items, readFails), cocktail.idDrink)
    {
      var favorite := FavoriteService.IsFavorite(store, cocktail.idDrink, readFails);
      isFavorited := favorite;
    }

    /** Remove when favourited, save otherwise; the flag flips only when the store call returned. */
    method HandleFavoriteToggle(readFails: bool, writeFails: bool) returns (alert: Alert)
      modifies this, store
      ensures var (r, after) :=
          if old(isFavorited) then FavoriteService.RemoveFavoriteEffect(old(store.items), cocktail.idDrink, readFails, writeFails)
          else FavoriteService.SaveFavoriteEffect(old(store.items), cocktail, readFails, writeFails);
        store.items == after && (alert == FailedToUpdateFavorites <==> r == Fail)
      ensures alert == FailedToUpdateFavorites ==> isFavorited == old(isFavorited)
      ensures alert != FailedToUpdateFavorites ==> isFavorited == !old(isFavorited)
      ensures alert != FailedToUpdateFavorites ==>
        isFavorited == FavoriteService.HasId(FavoriteService.StoredFavorites(store.items), cocktail.idDrink)
    {
      var items := store.items;
      if isFavorited {
        var r := FavoriteService.RemoveFavorite(store, cocktail.idDrink, readFails, writeFails);
        if r == Fail {
          alert := FailedToUpdateFavorites;
          return;
        }
        FavoriteService.RemoveThenNotFavorite(items, cocktail.idDrink, readFails, writeFails);
        isFavorited := false;
        alert := RemovedFromFavorites;
      } else {
        var r := FavoriteService.SaveFavorite(store, cocktail, readFails, writeFails);
        if r == Fail {
          alert := FailedToUpdateFavorites;
          return;
        }
        FavoriteService.SaveThenIsFavorite(items, cocktail, readFails, writeFails);
        isFavorited := true;
        alert := AddedToFavorites;
      }
    }

    method GetIngredients() returns (ingredients: seq<Ingredient>)
      ensures ingredients == IngredientsUpTo(cocktail, SLOT_COUNT)
      ensures |ingredients| <= SLOT_COUNT
    {
      ingredients := [];
      for i := 1 to SLOT_COUNT + 1
        invariant ingredients == IngredientsUpTo(cocktail, i - 1)
      {
        var ingredient := Slot(cocktail.strIngredient, i);
        var measure := Slot(cocktail.strMeasure, i);
        if Truthy(ingredient) {
          ingredients := ingredients + [Ingredient(ingredient.value, if Truthy(measure) then measure.value else TO_TASTE)];
        }
      }
      IngredientsPerFilledSlot(cocktail, SLOT_COUNT);
    }
  }

  // ---------------------------------------------------------------------------
  // Properties

  /** The filled slots are listed once each, in increasing order, and nothing else is. */
  lemma {:induction false} FilledSlotsExact(c: Cocktail, n: nat)
    ensures forall s :: s in FilledSlots(c, n) <==> 1 <= s <= n && Filled(c, s)
    ensures forall i, j :: 0 <= i < j < |FilledSlots(c, n)| ==> FilledSlots(c, n)[i] < FilledSlots(c, n)[j]
    ensures |FilledSlots(c, n)| <= n
  {
    if n > 0 {
      FilledSlotsExact(c, n - 1);
      var before := FilledSlots(c, n - 1);
      assert forall i :: 0 <= i < |before| ==> before[i] in before && before[i] < n;
    }
  }

  /** The k-th ingredient is the entry of the k-th filled slot: one entry per filled slot, in slot order. */
  lemma {:induction false} IngredientsPerFilledSlot(c: Cocktail, n: nat)
    ensures |IngredientsUpTo(c, n)| == |FilledSlots(c, n)| <= n
    ensures forall k :: 0 <= k < |FilledSlots(c, n)| ==>
      Filled(c, FilledSlots(c, n)[k]) && IngredientsUpTo(c, n)[k] == Entry(c, FilledSlots(c, n)[k])
  {
    if n > 0 {
      IngredientsPerFilledSlot(c, n - 1);
      FilledSlotsExact(c, n);
    }
  }

  /** Every entry names a non-empty ingredient and a non-empty measure, the slot's own when it has one. */
  lemma IngredientEntriesAreReadable(c: Cocktail)
    ensures forall k :: 0 <= k < |IngredientsUpTo(c, SLOT_COUNT)| ==>
      IngredientsUpTo(c, SLOT_COUNT)[k].ingredient != "" && IngredientsUpTo(c, SLOT_COUNT)[k].measure != ""
    ensures forall k :: 0 <= k < |IngredientsUpTo(c, SLOT_COUNT)| && k < |FilledSlots(c, SLOT_COUNT)| ==>
      var n := FilledSlots(c, SLOT_COUNT)[k];
      IngredientsUpTo(c, SLOT_COUNT)[k].measure ==
        if Truthy(Slot(c.strMeasure, n)) then Slot(c.strMeasure, n).value else TO_TASTE
  {
    IngredientsPerFilledSlot(c, SLOT_COUNT);
  }

  /** A recipe whose slots up to n are all empty or missing lists no ingredient. */
  lemma {:induction false} NoFilledSlotNoIngredients(c: Cocktail, n: nat)
    requires forall m :: 1 <= m <= n ==> !Filled(c, m)
    ensures IngredientsUpTo(c, n) == []
  {
    if n > 0 {
      NoFilledSlotNoIngredients(c, n - 1);
    }
  }
}

=== FILE: types.dfy ===
/** Value types shared by the favorites repository, the session provider and the screens. */
module Types {

  datatype Option<+T> = None | Some(value: T)

  /** JavaScript's truthiness on an optional string: a missing value, `null` and "" are all falsy. */
  predicate Truthy(s: Option<string>) {
    s.Some? && s.value != ""
  }

  /** A recipe as the remote API delivers it. Only `idDrink` is ever compared; the other fields
      are carried along unchanged. `strIngredient[n - 1]` and `strMeasure[n - 1]` stand for the
      record's `strIngredient<n>` and `strMeasure<n>` properties; a slot past the end of either
      sequence is a property the record does not have. */
  datatype Cocktail = Cocktail(
    idDrink: string,
    strDrink: string,
    strDrinkThumb: string,
    strCategory: string,
    strAlcoholic: string,
    strGlass: Option<string>,
    strInstructions: Option<string>,
    strIngredient: seq<Option<string>>,
    strMeasure: seq<Option<string>>)

  /** The literal values of each preference field's string-literal union type. */
  const DRINK_STRENGTH_VALUES: seq<string> := ["Light", "Medium", "Strong"]
  const SWEETNESS_VALUES: seq<string> := ["Not Sweet", "Slightly Sweet", "Sweet", "Very Sweet"]
  const BASE_LIQUOR_VALUES: seq<string> := ["Vodka", "Whiskey", "Rum", "Gin", "Tequila", "Brandy"]
  const MOOD_VALUES: seq<string> := ["Relaxed", "Energetic", "Social", "Romantic", "Adventurous"]

  type DrinkStrength = s: string | s in DRINK_STRENGTH_VALUES witness "Light"
  type Sweetness = s: string | s in SWEETNESS_VALUES witness "Sweet"
  type BaseLiquor = s: string | s in BASE_LIQUOR_VALUES witness "Vodka"
  type Mood = s: string | s in MOOD_VALUES witness "Relaxed"

  datatype UserPreferences = UserPreferences(
    drinkStrength: DrinkStrength,
    sweetness: Sweetness,
    baseLiquor: BaseLiquor,
    mood: Mood)

  /** An opaque point in time. It is only stored and restored, never inspected. */
  datatype Timestamp = Timestamp(millis: int)

  datatype UserStats = UserStats(
    totalFavorites: int,
    cocktailsTried: int,
    favoriteSpirit: string,
    totalSessions: int,
    lastActive: Timestamp)
}

=== FILE: user_context.dfy ===
/** The user session provider: an in-memory cache of the user's preferences and stats, loaded
    once from the store and written back on every change. Preference writes and clearing report
    store failures to the caller; stats writes swallow them. */
module UserContext {
  import opened Types
  import opened AsyncStore
  import FavoriteService

  const PREFERENCES_KEY := "user_preferences"
  const STATS_KEY := "user_stats"

  /** `defaultStats`; `lastActive` is the clock reading taken when the module was loaded. */
  function DefaultStats(moduleLoadedAt: Timestamp): UserStats {
    UserStats(0, 0, "Vodka", 0, moduleLoadedAt)
  }

  /** A `Partial<UserStats>`: `None` is a property the object does not have. */
  datatype PartialStats = PartialStats(
    totalFavorites: Option<int>,
    cocktailsTried: Option<int>,
    favoriteSpirit: Option<string>,
    totalSessions: Option<int>,
    lastActive: Option<Timestamp>)

  function Pick<T>(given: Option<T>, current: T): T {
    if given.Some? then given.value else current
  }

  /** `{ ...stats, ...newStats }`. */
  function Merge(stats: UserStats, newStats: PartialStats): UserStats {
    UserStats(
      Pick(newStats.totalFavorites, stats.totalFavorites),
      Pick(newStats.cocktailsTried, stats.cocktailsTried),
      Pick(newStats.favoriteSpirit, stats.favoriteSpirit),
      Pick(newStats.totalSessions, stats.totalSessions),
      Pick(newStats.lastActive, stats.lastActive))
  }

  function PickLater<T>(first: Option<T>, second: Option<T>): Option<T> {
    if second.Some? then second else first
  }

  /** `{ ...first, ...second }` on two partial records. */
  function Combine(first: PartialStats, second: PartialStats): PartialStats {
    PartialStats(
      PickLater(first.totalFavorites, second.totalFavorites),
      PickLater(first.cocktailsTried, second.cocktailsTried),
      PickLater(first.favoriteSpirit, second.favoriteSpirit),
      PickLater(first.totalSessions, second.totalSessions),
      PickLater(first.lastActive, second.lastActive))
  }

  const NO_STATS := PartialStats(None, None, None, None, None)

  /** The two cached slots the provider exposes. */
  datatype Session = Session(preferences: Option<UserPreferences>, stats: UserStats)

  /** The second half of `loadUserData`: a stored stats record replaces the cached one wholesale
      (`lastActive` is rebuilt from its stored form, which serialisation makes the identity). */
  function LoadStatsEffect(items: Items, s: Session, statsReadFails: bool): Session {
    match GetItemResult(items, STATS_KEY, statsReadFails)
    case Read(Some(StatsJson(saved))) => s.(stats := saved)
    case _ => s
  }

  /** `loadUserData`: preferences first, then stats; any error ends the load and is swallowed,
      keeping what was already set. */
  function LoadEffect(items: Items, s: Session, prefsReadFails: bool, statsReadFails: bool): Session {
    match GetItemResult(items, PREFERENCES_KEY, prefsReadFails)
    case ReadFailed => s
    case Read(None) => LoadStatsEffect(items, s, statsReadFails)
    case Read(Some(PreferencesJson(p))) => LoadStatsEffect(items, s.(preferences := Some(p)), statsReadFails)
    case Read(Some(_)) => s
  }

  /** The provider's own keys hold values of the shape the provider writes, or nothing. */
  predicate UserDataShaped(items: Items) {
    && (PREFERENCES_KEY in items ==> items[PREFERENCES_KEY].PreferencesJson?)
    && (STATS_KEY in items ==> items[STATS_KEY].StatsJson?)
  }

  class UserProvider {
    var preferences: Option<UserPreferences>
    var stats: UserStats
    const defaultStats: UserStats
    const store: Storage

    function Current(): Session
      reads this
    {
      Session(preferences, stats)
    }

    /** The provider as first rendered, before `loadUserData` has run. */
    constructor (store: Storage, moduleLoadedAt: Timestamp)
      ensures this.store == store && defaultStats == DefaultStats(moduleLoadedAt)
      ensures preferences == None && stats == defaultStats
      ensures stats.totalFavorites == 0 && stats.cocktailsTried == 0 && stats.totalSessions == 0
      ensures stats.favoriteSpirit == "Vodka"
    {
      this.store := store;
      defaultStats := DefaultStats(moduleLoadedAt);
      preferences := None;
      stats := DefaultStats(moduleLoadedAt);
    }

    method LoadUserData(prefsReadFails: bool, statsReadFails: bool)
      modifies this
      ensures Current() == LoadEffect(store.items, old(Current()), prefsReadFails, statsReadFails)
    {
      var preferencesJson := store.GetItem(PREFERENCES_KEY, prefsReadFails);
      match preferencesJson {
        case ReadFailed =>
          return;
        case Read(None) =>
        case Read(Some(json)) =>
          if !json.PreferencesJson? {
            return;
          }
          preferences := Some(json.prefs);
      }
      var statsJson := store.GetItem(STATS_KEY, statsReadFails);
      if statsJson.Read? && statsJson.value.Some? && statsJson.value.value.StatsJson? {
        // `new Date(savedStats.lastActive)` restores the timestamp that was serialised
        stats := statsJson.value.value.stats;
      }
    }

    /** Cache first, then the write; a failed write is reported and the cache keeps the new value. */
    method UpdatePreferences(newPreferences: UserPreferences, writeFails: bool) returns (r: Outcome)
      modifies this, store
      ensures preferences == Some(newPreferences) && stats == old(stats)
      ensures (r, store.items) == SetItemEffect(old(store.items), PREFERENCES_KEY, PreferencesJson(newPreferences), writeFails)
    {
      preferences := Some(newPreferences);
      r := store.SetItem(PREFERENCES_KEY, PreferencesJson(newPreferences), writeFails);
    }

    /** Merge into the cache, then write the merged record; a failed write is swallowed. */
    method UpdateStats(newStats: PartialStats, writeFails: bool)
      modifies this, store
      ensures stats == Merge(old(stats), newStats) && preferences == old(preferences)
      ensures store.items == SetItemEffect(old(store.items), STATS_KEY, StatsJson(stats), writeFails).1
    {
      var updatedStats := Merge(stats, newStats);
      stats := updatedStats;
      var ignored := store.SetItem(STATS_KEY, StatsJson(updatedStats), writeFails);
    }

    /** Reset the cache, then remove both keys; a failed removal is reported and the reset stands. */
    method ClearUserData(removeFails: bool) returns (r: Outcome)
      modifies this, store
      ensures preferences == None && stats == defaultStats
      ensures (r, store.items) == RemoveEffect(old(store.items), {PREFERENCES_KEY, STATS_KEY}, removeFails)
    {
      preferences := None;
      stats := defaultStats;
      r := store.MultiRemove([PREFERENCES_KEY, STATS_KEY], removeFails);
      assert (set k | k in [PREFERENCES_KEY, STATS_KEY]) == {PREFERENCES_KEY, STATS_KEY};
    }
  }

  datatype Lookup<T> = Found(value: T) | Thrown(message: string)

  const NO_PROVIDER_MESSAGE := "useUser must be used within a UserProvider"

  /** `useUser`: the nearest provider's value, or an error when the component has no provider above it. */
  function UseUser(context: Option<UserProvider>): (r: Lookup<UserProvider>)
    ensures r.Found? <==> context.Some?
    ensures r.Found? ==> r.value == context.value
    ensures r.Thrown? ==> r.message == NO_PROVIDER_MESSAGE
  {
    match context
    case Some(provider) => Found(provider)
    case None => Thrown(NO_PROVIDER_MESSAGE)
  }

  // ---------------------------------------------------------------------------
  // Properties

  /** Merging only overrides the fields the partial record has. */
  lemma MergeOverridesExactlyGivenFields(stats: UserStats, newStats: PartialStats)
    ensures var r := Merge(stats, newStats);
      && (newStats.totalFavorites.Some? ==> r.totalFavorites == newStats.totalFavorites.value)
      && (newStats.totalFavorites.None? ==> r.totalFavorites == stats.totalFavorites)
      && (newStats.cocktailsTried.Some? ==> r.cocktailsTried == newStats.cocktailsTried.value)
      && (newStats.cocktailsTried.None? ==> r.cocktailsTried == stats.cocktailsTried)
      && (newStats.favoriteSpirit.Some? ==> r.favoriteSpirit == newStats.favoriteSpirit.value)
      && (newStats.favoriteSpirit.None? ==> r.favoriteSpirit == stats.favoriteSpirit)
      && (newStats.totalSessions.Some? ==> r.totalSessions == newStats.totalSessions.value)
      && (newStats.totalSessions.None? ==> r.totalSessions == stats.totalSessions)
      && (newStats.lastActive.Some? ==> r.lastActive == newStats.lastActive.value)
      && (newStats.lastActive.None? ==> r.lastActive == stats.lastActive)
  {
  }

  /** An empty partial record changes nothing; merging the same partial twice is merging it once. */
  lemma MergeIdentityAndIdempotence(stats: UserStats, newStats: PartialStats)
    ensures Merge(stats, NO_STATS) == stats
    ensures Merge(Merge(stats, newStats), newStats) == Merge(stats, newStats)
  {
  }

  /** Two updates in a row are one update with the later partial spread over the earlier. */
  lemma MergeSequential(stats: UserStats, first: PartialStats, second: PartialStats)
    ensures Merge(Merge(stats, first), second) == Merge(stats, Combine(first, second))
  {
  }

  /** Merging `{cocktailsTried: 6}` into `{3, 5, "Rum", 2}` changes only `cocktailsTried`. */
  lemma MergeExample(t: Timestamp)
    ensures Merge(UserStats(3, 5, "Rum", 2, t), PartialStats(None, Some(6), None, None, None))
         == UserStats(3, 6, "Rum", 2, t)
  {
  }

  /** A failed preferences read ends the load before stats are read: nothing changes. */
  lemma LoadStopsAtPreferencesFailure(items: Items, s: Session, statsReadFails: bool)
    ensures LoadEffect(items, s, true, statsReadFails) == s
  {
  }

  /** With neither key stored, loading leaves both slots as they were: null and the defaults on mount. */
  lemma LoadWithNothingStored(items: Items, s: Session, prefsReadFails: bool, statsReadFails: bool)
    requires PREFERENCES_KEY !in items && STATS_KEY !in items
    ensures LoadEffect(items, s, prefsReadFails, statsReadFails) == s
  {
  }

  /** Without a stored stats record, or when the stats read throws, loading keeps the cached stats,
      whatever happens to preferences. */
  lemma LoadWithoutStatsKeepsStats(items: Items, s: Session, prefsReadFails: bool, statsReadFails: bool)
    requires STATS_KEY !in items || statsReadFails
    ensures LoadEffect(items, s, prefsReadFails, statsReadFails).stats == s.stats
  {
  }

  /** A stored stats record replaces the cached stats wholesale, whatever they were. */
  lemma LoadReplacesStatsWholesale(items: Items, s: Session, saved: UserStats)
    requires UserDataShaped(items)
    requires STATS_KEY in items && items[STATS_KEY] == StatsJson(saved)
    ensures LoadEffect(items, s, false, false).stats == saved
  {
  }

  /** A stored preferences record replaces the cached one; without one the cached value stays. */
  lemma LoadPreferences(items: Items, s: Session, statsReadFails: bool)
    requires UserDataShaped(items)
    ensures PREFERENCES_KEY in items ==>
      LoadEffect(items, s, false, statsReadFails).preferences == Some(items[PREFERENCES_KEY].prefs)
    ensures PREFERENCES_KEY !in items ==>
      LoadEffect(items, s, false, statsReadFails).preferences == s.preferences
  {
  }

  /** A preferences write that succeeded is what the next load restores. */
  lemma PreferencesRoundTrip(items: Items, s: Session, p: UserPreferences, statsReadFails: bool)
    ensures var (r, after) := SetItemEffect(items, PREFERENCES_KEY, PreferencesJson(p), false);
      LoadEffect(after, s, false, statsReadFails).preferences == Some(p)
  {
  }

  /** A stats write that succeeded is what the next load restores. */
  lemma StatsRoundTrip(items: Items, s: Session, stats: UserStats, newStats: PartialStats)
    requires UserDataShaped(items)
    ensures var (r, after) := SetItemEffect(items, STATS_KEY, StatsJson(Merge(stats, newStats)), false);
      LoadEffect(after, s, false, false).stats == Merge(stats, newStats)
  {
    assert PREFERENCES_KEY != STATS_KEY by {
      assert PREFERENCES_KEY[5] != STATS_KEY[5];
    }
  }

  /** After a successful clear, a load finds nothing and keeps the reset session. */
  lemma ClearThenLoadKeepsReset(items: Items, defaultStats: UserStats, prefsReadFails: bool, statsReadFails: bool)
    ensures var (r, after) := RemoveEffect(items, {PREFERENCES_KEY, STATS_KEY}, false);
      LoadEffect(after, Session(None, defaultStats), prefsReadFails, statsReadFails) == Session(None, defaultStats)
  {
  }

  /** The provider's writes keep its keys well shaped and leave the favorites list as it was. */
  lemma UserDataWritesKeepShapeAndFavorites(items: Items, p: UserPreferences, stats: UserStats, fails: bool)
    requires UserDataShaped(items)
    ensures var after := SetItemEffect(items, PREFERENCES_KEY, PreferencesJson(p), fails).1;
      UserDataShaped(after) && FavoriteService.StoredFavorites(after) == FavoriteService.StoredFavorites(items)
    ensures var after := SetItemEffect(items, STATS_KEY, StatsJson(stats), fails).1;
      UserDataShaped(after) && FavoriteService.StoredFavorites(after) == FavoriteService.StoredFavorites(items)
    ensures var after := RemoveEffect(items, {PREFERENCES_KEY, STATS_KEY}, fails).1;
      UserDataShaped(after) && FavoriteService.StoredFavorites(after) == FavoriteService.StoredFavorites(items)
  {
    assert FavoriteService.FAVORITES_KEY != PREFERENCES_KEY && FavoriteService.FAVORITES_KEY != STATS_KEY by {
      assert FavoriteService.FAVORITES_KEY[0] != PREFERENCES_KEY[0];
      assert FavoriteService.FAVORITES_KEY[0] != STATS_KEY[0];
    }
  }

  /** The favorites operations leave the provider's keys, and so the next load, untouched. */
  lemma FavoritesWritesKeepUserData(items: Items, cocktail: Cocktail, id: string, readFails: bool, writeFails: bool, removeFails: bool)
    ensures var after := FavoriteService.SaveFavoriteEffect(items, cocktail, readFails, writeFails).1;
      forall k :: k in {PREFERENCES_KEY, STATS_KEY} ==> (k in after <==> k in items) && (k in items ==> after[k] == items[k])
    ensures var after := FavoriteService.RemoveFavoriteEffect(items, id, readFails, writeFails).1;
      forall k :: k in {PREFERENCES_KEY, STATS_KEY} ==> (k in after <==> k in items) && (k in items ==> after[k] == items[k])
    ensures var after := FavoriteService.ClearFavoritesEffect(items, removeFails).1;
      forall k :: k in {PREFERENCES_KEY, STATS_KEY} ==> (k in after <==> k in items) && (k in items ==> after[k] == items[k])
  {
    assert FavoriteService.FAVORITES_KEY != PREFERENCES_KEY && FavoriteService.FAVORITES_KEY != STATS_KEY by {
      assert FavoriteService.FAVORITES_KEY[0] != PREFERENCES_KEY[0];
      assert FavoriteService.FAVORITES_KEY[0] != STATS_KEY[0];
    }
    FavoriteService.FavoritesOpsFrame(items, cocktail, id, readFails, writeFails, removeFails);
    forall k | k in {PREFERENCES_KEY, STATS_KEY}
      ensures k in (items - {FavoriteService.FAVORITES_KEY}) <==> k in items
    {
    }
  }
}

=== FILE: user_dashboard_screen.dfy ===
/** The dashboard's favourites list and its own three-field stats record, which it keeps in step
    with the favorites repository when it loads and when the user confirms "Clear All". */
module UserDashboardScreen {
  import opened Types
  import opened AsyncStore
  import FavoriteService

  /** The screen's local stats; not the session provider's `UserStats`. */
  datatype DashboardStats = DashboardStats(totalFavorites: int, cocktailsTried: int, favoriteSpirit: string)

  const INITIAL_STATS := DashboardStats(0, 0, "Vodka")

  datatype ClearAlert = FavoritesCleared | FailedToClearFavorites

  class UserDashboard {
    var favorites: seq<Cocktail>
    var userStats: DashboardStats
    const store: Storage

    /** The count shown on the "Favorites" card is the length of the list shown below it. */
    predicate InStep()
      reads this
    {
      userStats.totalFavorites == |favorites|
    }

    /** "Clear All" is offered only while the list is non-empty. */
    predicate ShowsClearAll()
      reads this
    {
      |favorites| > 0
    }

    constructor (store: Storage)
      ensures this.store == store
      ensures favorites == [] && userStats == INITIAL_STATS && InStep()
    {
      this.store := store;
      favorites := [];
      userStats := INITIAL_STATS;
    }

    method LoadUserData(readFails: bool)
      modifies this
      ensures favorites == FavoriteService.ReadFavorites(store.items, readFails)
      ensures userStats == old(userStats).(totalFavorites := |favorites|)
      ensures InStep() && (ShowsClearAll() <==> FavoriteService.ReadFavorites(store.items, readFails) != [])
    {
      var userFavorites := FavoriteService.GetFavorites(store, readFails);
      favorites := userFavorites;
      userStats := userStats.(totalFavorites := |userFavorites|);
    }

    /** The "Clear" button of the confirmation dialog. */
    method ConfirmClearFavorites(removeFails: bool) returns (alert: ClearAlert)
      modifies this, store
      ensures var (r, after) := FavoriteService.ClearFavoritesEffect(old(store.items), removeFails);
        store.items == after && (alert == FailedToClearFavorites <==> r == Fail)
      ensures alert == FavoritesCleared ==>
        && favorites == [] && userStats == old(userStats).(totalFavorites := 0)
        && favorites == FavoriteService.StoredFavorites(store.items)
      ensures alert == FavoritesCleared ==> InStep() && !ShowsClearAll()
      ensures alert == FailedToClearFavorites ==> favorites == old(favorites) && userStats == old(userStats)
      ensures old(InStep()) ==> InStep()
    {
      var items := store.items;
      var r := FavoriteService.ClearFavorites(store, removeFails);
      if r == Fail {
        alert := FailedToClearFavorites;
        return;
      }
      FavoriteService.ClearEmpties(items, removeFails);
      favorites := [];
      userStats := userStats.(totalFavorites := 0);
      alert := FavoritesCleared;
    }
  }
}
